=== FILE: README.md ===
# Bargaining policy engine — a Dafny model

This project models the core of a merchant admin dashboard for Shopify stores.
A merchant stores *bargaining policies*: a negotiation `behavior` and a price
floor `minPrice` for each product variant. The model covers three parts.

- **The bargaining controller** (`src/controllers/bargaining.controller.js`).
  It has three write scopes: by category, all products, and a single variant.
  Each scope reads the merchant's Shopify credentials, fetches the catalog,
  and picks the target variants. It then runs a find-then-update-or-create
  upsert keyed by (variant id, user). There are two direct edits of stored
  policies: set-min-price, and a soft delete. There is also a listing of
  every stored policy.
- **The `BargainingDetails` schema** (`src/models/bargainingDetails.model.js`).
  It gives the record type and its validators: required fields, `behavior`
  in `BARGAIN_BEHAVIOUR`, and `minPrice >= 0`. These decide which saves are
  refused.
- **The Shopify controller** (`src/controllers/shopify.controller.js`). It
  covers the flat variant listing and the listing grouped by product type.
  It also covers the credential rules: create-once, and a field-by-field
  patch. The grouped listing is modelled as written, including its failure on
  product types such as `"constructor"` (see "## Findings").

The model is functional. Each handler is a pure function of the stored state
and the request. A handler that writes returns a `Step`: the state afterwards
and a reply, which is either a success payload or an `ApiError` (its HTTP
status is `Api.Status`). The two catalog reads return a `Result` of the
listing, and the policy listing returns the sequence of entries.

- **Policy store.** The collection is a `seq<Record>` in natural order.
  Mongo's `findOne` is the first match.
- **Credential store.** A map from user to `Credentials`.
- **Catalog fetch.** The `axios.get` of `products.json` becomes a `Fetcher`,
  a function of the stored credentials. So "no credentials, no fetch" is
  stated as the outcome not depending on the fetcher.
- **`BARGAIN_BEHAVIOUR`.** It is a parameter `behaviours: set<string>`,
  because `constants.js` is not part of this model.
- **Prices and the id cast.** Prices are integers. Variant ids are natural
  numbers. Mongoose's cast of a numeric id to the `String` path `productId`,
  and `variantId.toString()`, are both `Decimal.Format`.

Modules:

- `Wrappers`: `Option` and `Result`.
- `Api`: errors, statuses and `Step`.
- `Find`: first-match search.
- `Decimal`: the number-to-text cast.
- `Catalog`: products, the flattening, the category rule, credentials and the
  fetch.
- `PolicyStore`: the schema and the upsert.
- `Bargaining`: the bargaining controller.
- `Shopify`: the Shopify controller.

Points where the code's behaviour is easy to mistake. The model follows the
code on each.

- **Category scope checks only that `behavior` is present.** An invalid
  behavior, a negative price or a price that is not a number is refused by
  the schema at the first save. That save happens before any write, and
  every save in the batch carries the same behavior and price, so a refused
  batch writes nothing (`PolicyStore.UpsertAll`). A category whose products
  have no variants succeeds with no write, whatever the behavior
  (`Bargaining.CategoryWithoutVariants`).
- **The emptiness checks count products, not variants.** This applies to the
  category scope and the all-products scope.
- **The by-product scope has a broken behavior check.** For an invalid
  behavior it builds its message from `validBehaviors`, which is undefined.
  The handler therefore throws a ReferenceError (status 500, nothing written)
  instead of answering 400. The model reports this as `BehaviorListUndefined`.
- **Set-min-price and delete are not scoped by user.** They look a record up
  by `productId` alone. They change the first such record, whoever owns it.
  Neither ever creates a record.
- **`isActive` and `isAvailable` are not declared in the schema.**
  `isActive` is written by set-min-price (bargaining.controller.js:238) and
  by delete (line 279). `isAvailable` is never written: it is only returned
  by set-min-price (line 257) and listed (line 307). The model keeps both as
  `Option<bool>`, unset on creation; only `isActive` is ever set.
- **Variant ids are compared as canonical decimal text.** So a requested
  `productId` of `"0101"` never finds variant 101
  (`Bargaining.ByProductLeadingZero`).

## Model

| member | source | states |
|---|---|---|
| `Api.Status` | src/controllers/bargaining.controller.js:15-299 | the status each `ApiError(status, …)` site uses: 400 exactly for missing request fields, an invalid behavior in the all-products scope, an invalid min price and update-credentials without a record (shopify.controller.js:117-120); the credential-form errors are 404 (shopify.controller.js:96-102); errors caught by the `catch` blocks or thrown past them are 500; every other error is 404 |
| `Find.FindFirst` | src/controllers/bargaining.controller.js:174 | returns the index of the first element that matches, with no match before it; returns none exactly when no element matches |
| `Decimal.ParseFormat` | src/controllers/bargaining.controller.js:174 | reading back the decimal text of an id gives the id |
| `Decimal.FormatInjective` | src/controllers/bargaining.controller.js:174 | two variant ids have equal string forms if and only if they are the same id |
| `Decimal.FormatNoLeadingZero` | src/controllers/bargaining.controller.js:174 | the string form of an id starts with '0' only when it is "0" |
| `Catalog.CategoryOf` | src/controllers/shopify.controller.js:30 | a missing or empty `product_type` gives "Uncategorized"; any other type is kept; the result is never empty |
| `Catalog.Flatten` | src/controllers/shopify.controller.js:26-39 | the flattening has exactly as many entries as there are variants over all products |
| `Catalog.FlattenAt` | src/controllers/shopify.controller.js:26-39 | variant j of product i sits at position (variants of products before i) + j: product-then-variant order |
| `Catalog.FlattenMember` | src/controllers/shopify.controller.js:26-39 | an entry (product, variant) is in the flattening if and only if the product is in the catalog and the variant is one of its variants |
| `Catalog.InCategory` | src/controllers/bargaining.controller.js:31-33 | keeps exactly the products whose `(product_type \|\| "Uncategorized")` equals the category; the result is empty if and only if no product has that category |
| `Catalog.InCategoryAppend` | src/controllers/bargaining.controller.js:31-33 | the filter distributes over concatenation, so it keeps the catalog order of the products it selects |
| `Catalog.LoadCatalog` | src/controllers/bargaining.controller.js:18-28 | no stored credentials gives 404; otherwise a failed fetch gives a fetch error; success returns the catalog fetched with the user's own credentials |
| `Catalog.NoCredentialsNoFetch` | src/controllers/bargaining.controller.js:18-19 | without credentials the outcome is the same 404 whatever the fetch would return, so no fetch happens |
| `PolicyStore.FindKey` | src/controllers/bargaining.controller.js:42-45 | finds the first record whose (productId, userId) is the key; finds none exactly when no record has that key |
| `PolicyStore.FindByProduct` | src/controllers/bargaining.controller.js:233-234 | finds the first record with that productId, for any user; finds none exactly when no record has it |
| `PolicyStore.Upsert` | src/controllers/bargaining.controller.js:42-60 | succeeds if and only if the document passes the schema (non-empty id and behavior, behavior in the set, price a number ≥ 0); on success the key has the new policy, an existing record is updated in place, a record is appended only when the key was absent, and nothing else changes; a refused save writes nothing |
| `PolicyStore.UpsertAll` | src/controllers/bargaining.controller.js:40-62 | a batch fails if and only if it is non-empty and the behavior/price cannot be saved; a failed batch leaves the store exactly as it was, so there are no partial writes |
| `PolicyStore.UpsertAllEffect` | src/controllers/bargaining.controller.js:40-62 | after a successful batch every target key holds the requested behavior and price; every other record is unchanged and in place; each appended record is fresh for a target key that no earlier record has |
| `PolicyStore.UpsertNoOp` | src/controllers/bargaining.controller.js:47-51 | re-applying the behavior and price already in force for a key leaves the store unchanged |
| `PolicyStore.UpsertAllIdempotent` | src/controllers/bargaining.controller.js:40-62 | running the same batch twice gives the same store and outcome as running it once |
| `PolicyStore.RefreshedConsistent` | src/models/bargainingDetails.model.js:4-27 | upserts of valid documents keep the store invariant: at most one record per (productId, userId), and every record has a non-empty id and behavior, a behavior in the set, and minPrice ≥ 0 |
| `Bargaining.VariantKeysMember` | src/controllers/bargaining.controller.js:40-45 | a store key is targeted by a batch if and only if some variant of some product in the batch has that id |
| `Bargaining.ApplyToVariants` | src/controllers/bargaining.controller.js:40-62 | the per-variant loop succeeds if and only if there are no variants or the behavior/price can be saved; on failure the store is unchanged |
| `Bargaining.SetBargainingByCategory` | src/controllers/bargaining.controller.js:10-67 | every failing outcome of the category scope leaves the store unchanged |
| `Bargaining.CategoryOutcome` | src/controllers/bargaining.controller.js:14-62 | the handler checks, in source order: a missing field gives 400 before the credential lookup, no credentials gives 404, a failed fetch gives an error, each with no write; when matching variants exist and the schema refuses the behavior or price, the save throws (`SaveRejected`, 500) with no write; success holds if and only if the fields are present, credentials exist, the fetch succeeds, some product has the category, and either it has no variants or the save passes |
| `Bargaining.CategoryNoMatch` | src/controllers/bargaining.controller.js:35-37 | when no product has the category the reply is 404 naming it and the store is unchanged |
| `Bargaining.CategoryWithoutVariants` | src/controllers/bargaining.controller.js:35-62 | when matching products exist but have no variants the scope succeeds with the store unchanged, even for an invalid behavior |
| `Bargaining.CategoryEffect` | src/controllers/bargaining.controller.js:31-62 | on success every variant of every product in the category has a policy for (variant id, user) with the given behavior and price; records of all other keys are unchanged |
| `Bargaining.CategoryIdempotent` | src/controllers/bargaining.controller.js:42-60 | applying the same category request twice gives the same store and reply as applying it once |
| `Bargaining.CategoryConsistent` | src/controllers/bargaining.controller.js:47-59 | the category scope keeps the store invariant (unique keys, schema-valid records) |
| `Bargaining.SetBargainingToAllProducts` | src/controllers/bargaining.controller.js:69-129 | every failing outcome of the all-products scope leaves the store unchanged |
| `Bargaining.AllProductsOutcome` | src/controllers/bargaining.controller.js:73-124 | the handler checks, in source order: a missing field gives 400, a behavior outside the set gives 400, no credentials gives 404, then a failed fetch, then an empty catalog gives 404; when variants exist and the schema refuses the price, the save throws (`SaveRejected`, 500) with no write; success holds if and only if all of these pass and either there are no variants or the save passes |
| `Bargaining.AllProductsEffect` | src/controllers/bargaining.controller.js:102-124 | on success every variant of every product has the user's policy with the given behavior and price; nothing else changes |
| `Bargaining.AllProductsIdempotent` | src/controllers/bargaining.controller.js:104-122 | applying the same all-products request twice gives the same result as applying it once |
| `Bargaining.AllProductsConsistent` | src/controllers/bargaining.controller.js:109-121 | the all-products scope keeps the store invariant |
| `Bargaining.CatalogEntriesAt` | src/controllers/bargaining.controller.js:161-171 | variant j of product i sits at its product-then-variant position of the by-product flattening, with the product's id, title and type (defaulting to "Uncategorized"), the variant's id, title and price, and its inventory defaulting to 0 |
| `Bargaining.FindVariant` | src/controllers/bargaining.controller.js:174 | finds the first catalog entry whose variant id, as text, equals the requested productId; finds none exactly when no entry's id does |
| `Bargaining.SetBargainingByProduct` | src/controllers/bargaining.controller.js:131-215 | every failing outcome of the single-variant scope leaves the store unchanged |
| `Bargaining.ByProductOutcome` | src/controllers/bargaining.controller.js:135-213 | the handler checks, in source order: a missing field gives 400, an invalid behavior throws (no lookup, no write), no credentials gives 404, then a failed fetch, then no matching variant gives 404; when a variant matches and the schema refuses the price, the save error is caught and answered 500 (`SaveRejected`) with no write; success holds if and only if some variant's id text equals productId and the save passes |
| `Bargaining.ByProductEffect` | src/controllers/bargaining.controller.js:161-211 | on success the target is the first flattened variant whose id text equals productId; the reply carries that id and the given minPrice; the policy for (productId, user) is upserted and nothing else changes |
| `Bargaining.ByProductLeadingZero` | src/controllers/bargaining.controller.js:174-177 | a productId with a leading zero (such as "0101") never matches any variant and gives 404 with no write |
| `Bargaining.ByProductIdempotent` | src/controllers/bargaining.controller.js:180-199 | repeating the same single-variant request gives the same store and reply |
| `Bargaining.ByProductConsistent` | src/controllers/bargaining.controller.js:185-199 | the single-variant scope keeps the store invariant |
| `Bargaining.SetMinPrice` | src/controllers/bargaining.controller.js:218-265 | set-min-price never adds or removes a record, and leaves the store unchanged on every error |
| `Bargaining.SetMinPriceOutcome` | src/controllers/bargaining.controller.js:222-246 | a missing productId or price gives 400; a price that is not a number or is negative gives 400; success holds if and only if the price is a number ≥ 0 and some record, of any user, has that productId; a valid request with no such record gives 404 (`NoBargainingDetails`) and writes nothing |
| `Bargaining.SetMinPriceEffect` | src/controllers/bargaining.controller.js:233-260 | on success the first record with that productId gets the new price and isActive = true, its other fields are kept, every other record is unchanged, and the reply reports the updated fields |
| `Bargaining.SetMinPriceConsistent` | src/controllers/bargaining.controller.js:233-242 | set-min-price keeps the store invariant |
| `Bargaining.DeleteBargaining` | src/controllers/bargaining.controller.js:268-301 | delete never adds or removes a record, and leaves the store unchanged on every error |
| `Bargaining.DeleteEffect` | src/controllers/bargaining.controller.js:271-296 | an empty productId gives 400 (`MissingFields`) with no write; otherwise it succeeds if and only if some record has that productId; no match gives 404 and creates nothing; on success the first such record becomes inactive with minPrice 0 whatever its old price, keeping its behavior and owner, and no other record changes |
| `Bargaining.DeleteIdempotent` | src/controllers/bargaining.controller.js:277-281 | deleting twice gives the same store and reply as deleting once |
| `Bargaining.DeleteConsistent` | src/controllers/bargaining.controller.js:277-281 | the soft delete keeps the store invariant |
| `Bargaining.GetBargainingDetails` | src/controllers/bargaining.controller.js:305-312 | lists one entry per stored record, for every user |
| `Bargaining.ListingRoundTrip` | src/controllers/bargaining.controller.js:307 | the listing drops only the owner: putting the userId back rebuilds each stored record |
| `Bargaining.CategoryExample` | src/controllers/bargaining.controller.js:31-62 | with Shirt ("Apparel": 101, 102) and Mug ("Home": 201), applying a policy to "Apparel" on an empty store creates exactly the two Shirt policies and none for 201 |
| `Shopify.ListVariants` | src/controllers/shopify.controller.js:26-39 | the flat listing has one entry per variant |
| `Shopify.ListVariantsAt` | src/controllers/shopify.controller.js:26-39 | variant j of product i is listed at its product-then-variant position; it is named after the product; its type defaults to "Uncategorized" and its inventory to 0; every other field is copied from the variant |
| `Shopify.GetAllProducts` | src/controllers/shopify.controller.js:11-44 | answers "no credentials" (404) exactly when the user has none and a fetch error exactly when the fetch fails, and succeeds otherwise; the success value is the flat listing of the fetched catalog (`ListVariants`), one entry per variant |
| `Shopify.GroupContents` | src/controllers/shopify.controller.js:61-85 | there is a bucket for exactly the product types that occur, even for products with no variants; each bucket holds the variants of that type's products in catalog order |
| `Shopify.GroupPlacesVariant` | src/controllers/shopify.controller.js:61-85 | every variant lands in the bucket of its own product's type |
| `Shopify.GroupAsWritten` | src/controllers/shopify.controller.js:61-85 | the grouping on a plain object can fail only with the TypeError of pushing onto a non-array |
| `Shopify.GroupAsWrittenAgrees` | src/controllers/shopify.controller.js:64-85 | the grouping as written equals the map-based grouping if and only if no product type names an inherited Object.prototype member; otherwise it throws |
| `Shopify.ConstructorTypeBreaksGrouping` | src/controllers/shopify.controller.js:66-84 | one product typed "constructor" makes the grouping as written throw, while the map-based grouping answers with one empty bucket |
| `Shopify.GetAllProductsByCategory` | src/controllers/shopify.controller.js:48-91 | the handler as written: it fails only with "no credentials", a fetch error or the TypeError of the plain-object grouping; "no credentials" exactly when the user has none, and a fetch error exactly when the fetch fails; with stored credentials and a successful fetch it throws if and only if some product type names an inherited `Object.prototype` member, and otherwise answers the map-based `Group` of the catalog; whenever it succeeds its buckets are exactly those of `Group` |
| `Shopify.CatalogReadsNeedCredentials` | src/controllers/shopify.controller.js:12-51 | without credentials both catalog reads answer 404 whatever a fetch would return |
| `Shopify.SetShopifyCred` | src/controllers/shopify.controller.js:93-112 | a missing field gives an error before the lookup; existing credentials give an error; otherwise exactly one record, the user's, is added with the given fields, other users' records are kept, and every failure leaves the store unchanged |
| `Shopify.SetShopifyCredOnce` | src/controllers/shopify.controller.js:98-100 | a second set for the same user always fails and never replaces the first record |
| `Shopify.UpdateShopifyCred` | src/controllers/shopify.controller.js:114-139 | without a record the reply is 400 and nothing changes; otherwise only the user's record changes and the set of users is kept |
| `Shopify.UpdateShopifyCredFields` | src/controllers/shopify.controller.js:126-128 | each field takes the request value when it is non-empty and keeps the stored value otherwise; an all-empty request changes nothing; a complete request replaces the record |

## Left out

- HTTP and Express plumbing is left out: `asyncHandler`, `ApiResponse`, response messages, routes and `app.js`. A thrown error is assumed to surface as status 500.
- The Shopify Admin API request is left out (the URL, the headers, network failures, pagination). It is the `Fetcher` input, and every fetch failure is the one `FetchFailed` error.
- Mongoose persistence details are left out: timestamps, ObjectId user ids (modelled as `nat`), and store failures other than the schema's cast and validators (a database that is down, for instance).
- Mongoose's strict mode is not modelled. The schema does not declare `isActive`, and under strict mode mongoose may drop it from the `$set` of set-min-price and delete. The model records what the controller writes. `isAvailable` is never written, so it stays unset.
- The read-then-write race between concurrent requests is left out. It is a concurrency matter, and the model is sequential. So the store invariant `UniqueKeys` is proved only for sequential use.
- Bargaining.SetMinPriceConsistent: holds only for the prices `PriceInput` can express. A JSON `null` or `""` minPrice passes the guard at bargaining.controller.js:227, because `isNaN` coerces both to 0 and neither is below 0. `findOneAndUpdate` (lines 233-242) runs no validators, so the program can store a null `minPrice` in a required path and answer it at line 254. The model has no such request value, so it cannot reach that state.
- Floating-point prices and `isNaN` coercion of strings are left out. Prices are integers, and the request price is `Absent`, `NotANumber` or an integer `Amount`.
- A `productId` sent as a JSON number is left out. `toString() === productId` is then always false. Request ids are modelled as text.
- Ids of 2^53 and above are left out. JavaScript's `toString` loses precision there, while `Decimal.Format` is exact.
- The order of keys in the `collections` object is left out. JavaScript lists integer-like keys first. A map has no order.
- `Shopify.GroupContents`: states the exact contents of each bucket rather than the multiset union over all buckets. Together with `Catalog.FlattenMember` it implies that union, but the union itself is not stated as one formula.
- The `ShopifyDetails` schema is left out (`src/models/shopifyDetails.model.js`). This includes string trimming and its lack of an `apiVersion` path. The credential record follows the Shopify controller.
- `getTotalOrders` is left out. It is an empty handler.
- User signup, OTP verification, sign-in and password handling (`src/controllers/user.controller.js`) are left out. So are JWT cookies (`src/utils/sendToken.js`) and e-mail (`src/utils/smtp.js`). They depend on hashing, clocks and mail delivery, which are not part of this model.
- `constants.js` is not part of this model. `BARGAIN_BEHAVIOUR` is a parameter.

## Findings

| source | as written | input that shows it | evidently intended | confidence | as-written member | corrected member |
|---|---|---|---|---|---|---|
| src/controllers/shopify.controller.js:61-84 | buckets live on a plain `{}`, so `!collections[t]` is false for names inherited from `Object.prototype`, the `[]` is never created, and `collections[t].push` throws a TypeError | a product whose `product_type` is `"constructor"` (also `"toString"`, `"__proto__"`, …), see `Shopify.ConstructorTypeBreaksGrouping` | every product type gets its own array bucket, as `Shopify.GroupContents` proves for the map-based grouping; `Shopify.GetAllProductsByCategory` keeps the behaviour as written and states that each of its successful answers is `Shopify.Group` of the catalog | high, not executed | `Shopify.GroupAsWritten` | `Shopify.Group` |

=== FILE: api.dfy ===
/** The errors the handlers report through `next(new ApiError(status, ...))`
    or by throwing inside `asyncHandler`, and the shape of a handler's outcome:
    the state it leaves behind together with its reply. */
module Api {
  import opened Wrappers

  datatype ApiError =
    | MissingFields                          // a required request field is falsy
    | InvalidBehavior                        // behavior not in BARGAIN_BEHAVIOUR (all-products scope)
    | BehaviorListUndefined                  // by-product scope: `validBehaviors` is not defined
    | InvalidMinPrice                        // set-min-price: NaN or negative
    | NoShopifyAccess                        // no Shopify credentials stored for the user
    | FetchFailed                            // the products.json request failed
    | NoProductsInCategory(category: string)
    | NoProductsInStore
    | VariantNotFound
    | NoBargainingDetails                    // set-min-price / delete found no record
    | SaveRejected                           // the schema's cast or validators refused a save
    | CredentialsIncomplete                  // set-credentials with a falsy field
    | CredentialsAlreadyAdded
    | ShopifyNotFound                        // update-credentials without a record
    | BucketNotAnArray                       // grouping pushed onto an inherited Object member

  /** HTTP status of each error. Errors that escape the handler (thrown, not
      passed to `next` with a status) surface as 500. */
  function Status(e: ApiError): (code: int)
    ensures code in {400, 404, 500}
    ensures code == 400 <==> e in {MissingFields, InvalidBehavior, InvalidMinPrice, ShopifyNotFound}
    ensures code == 500 <==> e in {BehaviorListUndefined, FetchFailed, SaveRejected, BucketNotAnArray}
  {
    match e
    case MissingFields => 400
    case InvalidBehavior => 400
    case InvalidMinPrice => 400
    case ShopifyNotFound => 400
    case NoShopifyAccess => 404
    case NoProductsInCategory(_) => 404
    case NoProductsInStore => 404
    case VariantNotFound => 404
    case NoBargainingDetails => 404
    case CredentialsIncomplete => 404
    case CredentialsAlreadyAdded => 404
    case BehaviorListUndefined => 500
    case FetchFailed => 500
    case SaveRejected => 500
    case BucketNotAnArray => 500
  }

  /** What a handler leaves behind: the (possibly updated) state and its reply. */
  datatype Step<S, T> = Step(state: S, reply: Result<T, ApiError>)
}

=== FILE: bargaining.dfy ===
/** The bargaining controller: three write scopes (by category, all products,
    single variant) that fetch the catalog and upsert one policy per targeted
    variant, two direct edits of stored policies (set-min-price, delete), and
    the listing of every stored policy. */
module Bargaining {
  import opened Wrappers
  import opened Api
  import opened Find
  import opened Decimal
  import opened Catalog
  import opened PolicyStore

  /** Request bodies. A missing string field and an empty one are both falsy
      and are both written "". */
  datatype CategoryRequest = CategoryRequest(category: string, behavior: string, minPrice: PriceInput) {
    /** `category && behavior && minPrice !== undefined` */
    predicate Complete() { category != "" && behavior != "" && !minPrice.Absent? }
  }

  datatype BulkRequest = BulkRequest(behavior: string, minPrice: PriceInput) {
    predicate Complete() { behavior != "" && !minPrice.Absent? }
  }

  datatype ProductRequest = ProductRequest(productId: string, behavior: string, minPrice: PriceInput) {
    predicate Complete() { productId != "" && behavior != "" && !minPrice.Absent? }
  }

  datatype MinPriceRequest = MinPriceRequest(productId: string, minPrice: PriceInput)

  /** Reply of the two bulk scopes: a success message only. */
  datatype Ack = Ack
  datatype ProductSet = ProductSet(productId: nat, minPrice: int)
  datatype MinPriceSet = MinPriceSet(productId: string, minPrice: int, behavior: string, isActive: Option<bool>, isAvailable: Option<bool>)
  datatype Deactivated = Deactivated(productId: string, isActive: Option<bool>, minPrice: int)
  /** The projection `'productId minPrice behavior isAvailable isActive'`. */
  datatype Listing = Listing(productId: string, minPrice: int, behavior: string, isAvailable: Option<bool>, isActive: Option<bool>)

  /** The by-product scope's own flattening of the catalog. */
  datatype CatalogEntry = CatalogEntry(
    productId: nat,
    variantId: nat,
    productType: string,
    productTitle: string,
    variantTitle: string,
    price: int,
    inventoryQuantity: int)

  function EntryOf(it: Item): CatalogEntry {
    CatalogEntry(it.product.id, it.variant.id, CategoryOf(it.product), it.product.title,
                 it.variant.title, it.variant.price, InventoryOf(it.variant))
  }

  function CatalogEntries(ps: seq<Product>): seq<CatalogEntry> {
    MapItems(Flatten(ps), EntryOf)
  }

  /** Variant j of product i is entry (variants before i) + j of the by-product
      flattening, carrying the product's id, type (defaulted) and title, the
      variant's id, title and price, and its inventory defaulted to 0. */
  lemma CatalogEntriesAt(ps: seq<Product>, i: nat, j: nat)
    requires i < |ps| && j < |ps[i].variants|
    ensures Offset(ps, i) + j < |CatalogEntries(ps)|
    ensures var e := CatalogEntries(ps)[Offset(ps, i) + j];
      var p := ps[i];
      var v := p.variants[j];
      && e.productId == p.id && e.variantId == v.id
      && e.productType == CategoryOf(p) && e.productTitle == p.title
      && e.variantTitle == v.title && e.price == v.price
      && (v.inventoryQuantity.None? ==> e.inventoryQuantity == 0)
      && (v.inventoryQuantity.Some? ==> e.inventoryQuantity == v.inventoryQuantity.value)
  {
    FlattenAt(ps, i, j);
  }

  /** The stored productId of a variant: its numeric id cast to a string. */
  function VariantKey(it: Item): string {
    Format(it.variant.id)
  }

  /** Store keys of every variant of `ps`, in loop order. */
  function VariantKeys(ps: seq<Product>): (r: seq<string>)
    ensures |r| == VariantCount(ps)
    ensures forall k :: 0 <= k < |r| ==> r[k] != ""
  {
    MapItems(Flatten(ps), VariantKey)
  }

  /** A store key is a target of a batch over `ps` exactly when some variant
      of some product in `ps` has that id. */
  lemma VariantKeysMember(ps: seq<Product>, pid: string)
    ensures pid in VariantKeys(ps) <==> exists p, v :: p in ps && v in p.variants && Format(v.id) == pid
  {
    var items := Flatten(ps);
    if pid in VariantKeys(ps) {
      var k :| 0 <= k < |items| && VariantKeys(ps)[k] == pid;
      FlattenMember(ps, items[k]);
    }
    if exists p, v :: p in ps && v in p.variants && Format(v.id) == pid {
      var p, v :| p in ps && v in p.variants && Format(v.id) == pid;
      FlattenMember(ps, Item(p, v));
      var k :| 0 <= k < |items| && items[k] == Item(p, v);
      assert VariantKeys(ps)[k] == pid;
    }
  }

  /** Upsert every variant of `ps`, reporting the first refused save. */
  function ApplyToVariants(behaviours: set<string>, s: Store, user: UserId, ps: seq<Product>, behavior: string, price: PriceInput)
    : (r: Step<Store, Ack>)
    ensures r.reply.Failure? ==> r.state == s && r.reply.error == SaveRejected
    ensures r.reply.Success? <==> VariantCount(ps) == 0 || Savable(behaviours, behavior, price)
  {
    var saved := UpsertAll(behaviours, s, user, VariantKeys(ps), behavior, price);
    if saved.error.Some? then Step(saved.store, Failure(saved.error.value)) else Step(saved.store, Success(Ack))
  }

  lemma ApplyToVariantsEffect(behaviours: set<string>, s: Store, user: UserId, ps: seq<Product>, behavior: string, price: PriceInput)
    requires Savable(behaviours, behavior, price)
    ensures Refreshed(s, ApplyToVariants(behaviours, s, user, ps, behavior, price).state, user, VariantKeys(ps), behavior, price.value)
    ensures Applied(ApplyToVariants(behaviours, s, user, ps, behavior, price).state, user, VariantKeys(ps), behavior, price.value)
  {
    UpsertAllEffect(behaviours, s, user, VariantKeys(ps), behavior, price);
  }

  lemma ApplyToVariantsIdempotent(behaviours: set<string>, s: Store, user: UserId, ps: seq<Product>, behavior: string, price: PriceInput)
    ensures var once := ApplyToVariants(behaviours, s, user, ps, behavior, price);
            ApplyToVariants(behaviours, once.state, user, ps, behavior, price) == once
  {
    UpsertAllIdempotent(behaviours, s, user, VariantKeys(ps), behavior, price);
  }

  lemma ApplyToVariantsConsistent(behaviours: set<string>, s: Store, user: UserId, ps: seq<Product>, behavior: string, price: PriceInput)
    requires Consistent(behaviours, s)
    ensures Consistent(behaviours, ApplyToVariants(behaviours, s, user, ps, behavior, price).state)
  {
    if Savable(behaviours, behavior, price) {
      ApplyToVariantsEffect(behaviours, s, user, ps, behavior, price);
      RefreshedConsistent(behaviours, s, ApplyToVariants(behaviours, s, user, ps, behavior, price).state,
                          user, VariantKeys(ps), behavior, price.value);
    }
  }

  /** A batch applied over `ps` covers every variant of every product of `ps`. */
  lemma AppliedCovers(t: Store, user: UserId, ps: seq<Product>, behavior: string, minPrice: int, p: Product, v: Variant)
    requires Applied(t, user, VariantKeys(ps), behavior, minPrice)
    requires p in ps && v in p.variants
    ensures HasPolicy(t, Format(v.id), user, behavior, minPrice)
  {
    FlattenMember(ps, Item(p, v));
    var k :| 0 <= k < |Flatten(ps)| && Flatten(ps)[k] == Item(p, v);
    assert VariantKeys(ps)[k] == Format(v.id);
  }

  // ---------------------------------------------------------------------------
  // setBargainingByCategory

  /** Category scope. The behavior is only checked for presence here; an
      invalid one is refused by the schema at the first save. */
  function SetBargainingByCategory(behaviours: set<string>, creds: CredentialStore, fetch: Fetcher, s: Store, user: UserId, req: CategoryRequest)
    : (r: Step<Store, Ack>)
    ensures r.reply.Failure? ==> r.state == s
  {
    if !req.Complete() then Step(s, Failure(MissingFields))
    else match LoadCatalog(creds, user, fetch)
      case Failure(e) => Step(s, Failure(e))
      case Success(products) =>
        var matching := InCategory(products, req.category);
        if |matching| == 0 then Step(s, Failure(NoProductsInCategory(req.category)))
        else ApplyToVariants(behaviours, s, user, matching, req.behavior, req.minPrice)
  }

  /** Errors of the category scope, in the order they are checked, and when
      the scope succeeds. */
  lemma CategoryOutcome(behaviours: set<string>, creds: CredentialStore, fetch: Fetcher, s: Store, user: UserId, req: CategoryRequest)
    ensures var r := SetBargainingByCategory(behaviours, creds, fetch, s, user, req);
      && (!req.Complete() ==> r == Step(s, Failure(MissingFields)))
      && (req.Complete() && user !in creds ==> r == Step(s, Failure(NoShopifyAccess)))
      && (req.Complete() && user in creds && fetch(creds[user]).Failure? ==> r == Step(s, Failure(FetchFailed)))
      && ((&& req.Complete() && user in creds && fetch(creds[user]).Success?
           && VariantCount(InCategory(fetch(creds[user]).value, req.category)) > 0
           && !Savable(behaviours, req.behavior, req.minPrice))
          ==> r == Step(s, Failure(SaveRejected)))
      && (r.reply.Success? <==>
            && req.Complete()
            && user in creds && fetch(creds[user]).Success?
            && (exists p :: p in fetch(creds[user]).value && CategoryOf(p) == req.category)
            && (VariantCount(InCategory(fetch(creds[user]).value, req.category)) == 0
                || Savable(behaviours, req.behavior, req.minPrice)))
  {
    if user in creds && fetch(creds[user]).Success? {
      var matching := InCategory(fetch(creds[user]).value, req.category);
      if |matching| > 0 {
        assert CategoryOf(matching[0]) == req.category;
      }
    }
  }

  /** No product of the category: a 404 naming the category, nothing written. */
  lemma CategoryNoMatch(behaviours: set<string>, creds: CredentialStore, fetch: Fetcher, s: Store, user: UserId, req: CategoryRequest)
    requires req.Complete()
    requires user in creds && fetch(creds[user]).Success?
    requires forall p :: p in fetch(creds[user]).value ==> CategoryOf(p) != req.category
    ensures SetBargainingByCategory(behaviours, creds, fetch, s, user, req) == Step(s, Failure(NoProductsInCategory(req.category)))
  {
  }

  /** The emptiness check counts products: a category whose products have no
      variants succeeds without writing, whatever the behavior and price. */
  lemma CategoryWithoutVariants(behaviours: set<string>, creds: CredentialStore, fetch: Fetcher, s: Store, user: UserId, req: CategoryRequest)
    requires req.Complete()
    requires user in creds && fetch(creds[user]).Success?
    requires exists p :: p in fetch(creds[user]).value && CategoryOf(p) == req.category
    requires forall p :: p in fetch(creds[user]).value && CategoryOf(p) == req.category ==> |p.variants| == 0
    ensures SetBargainingByCategory(behaviours, creds, fetch, s, user, req) == Step(s, Success(Ack))
  {
    var products := fetch(creds[user]).value;
    var matching := InCategory(products, req.category);
    var p :| p in products && CategoryOf(p) == req.category;
    assert p in matching;
    if |Flatten(matching)| > 0 {
      var it := Flatten(matching)[0];
      FlattenMember(matching, it);
    }
  }

  /** On success every variant of every product in the category holds a
      policy for the user with the requested behavior and price, and every
      other record is left as it was (see `Refreshed`). */
  lemma CategoryEffect(behaviours: set<string>, creds: CredentialStore, fetch: Fetcher, s: Store, user: UserId, req: CategoryRequest)
    requires SetBargainingByCategory(behaviours, creds, fetch, s, user, req).reply.Success?
    requires Savable(behaviours, req.behavior, req.minPrice)
    ensures user in creds && fetch(creds[user]).Success?
    ensures var t := SetBargainingByCategory(behaviours, creds, fetch, s, user, req).state;
      && Refreshed(s, t, user, VariantKeys(InCategory(fetch(creds[user]).value, req.category)), req.behavior, req.minPrice.value)
      && forall p, v :: p in fetch(creds[user]).value && CategoryOf(p) == req.category && v in p.variants
           ==> HasPolicy(t, Format(v.id), user, req.behavior, req.minPrice.value)
  {
    var products := fetch(creds[user]).value;
    var matching := InCategory(products, req.category);
    var t := SetBargainingByCategory(behaviours, creds, fetch, s, user, req).state;
    assert t == ApplyToVariants(behaviours, s, user, matching, req.behavior, req.minPrice).state;
    ApplyToVariantsEffect(behaviours, s, user, matching, req.behavior, req.minPrice);
    forall p, v | p in products && CategoryOf(p) == req.category && v in p.variants
      ensures HasPolicy(t, Format(v.id), user, req.behavior, req.minPrice.value)
    {
      AppliedCovers(t, user, matching, req.behavior, req.minPrice.value, p, v);
    }
  }

  lemma CategoryIdempotent(behaviours: set<string>, creds: CredentialStore, fetch: Fetcher, s: Store, user: UserId, req: CategoryRequest)
    ensures var once := SetBargainingByCategory(behaviours, creds, fetch, s, user, req);
            SetBargainingByCategory(behaviours, creds, fetch, once.state, user, req) == once
  {
    if req.Complete() && user in creds && fetch(creds[user]).Success? {
      var matching := InCategory(fetch(creds[user]).value, req.category);
      ApplyToVariantsIdempotent(behaviours, s, user, matching, req.behavior, req.minPrice);
    }
  }

  lemma CategoryConsistent(behaviours: set<string>, creds: CredentialStore, fetch: Fetcher, s: Store, user: UserId, req: CategoryRequest)
    requires Consistent(behaviours, s)
    ensures Consistent(behaviours, SetBargainingByCategory(behaviours, creds, fetch, s, user, req).state)
  {
    if req.Complete() && user in creds && fetch(creds[user]).Success? {
      var matching := InCategory(fetch(creds[user]).value, req.category);
      ApplyToVariantsConsistent(behaviours, s, user, matching, req.behavior, req.minPrice);
    }
  }

  // ---------------------------------------------------------------------------
  // setBargainingToAllProducts

  function SetBargainingToAllProducts(behaviours: set<string>, creds: CredentialStore, fetch: Fetcher, s: Store, user: UserId, req: BulkRequest)
    : (r: Step<Store, Ack>)
    ensures r.reply.Failure? ==> r.state == s
  {
    if !req.Complete() then Step(s, Failure(MissingFields))
    else if req.behavior !in behaviours then Step(s, Failure(InvalidBehavior))
    else match LoadCatalog(creds, user, fetch)
      case Failure(e) => Step(s, Failure(e))
      case Success(products) =>
        if |products| == 0 then Step(s, Failure(NoProductsInStore))
        else ApplyToVariants(behaviours, s, user, products, req.behavior, req.minPrice)
  }

  lemma AllProductsOutcome(behaviours: set<string>, creds: CredentialStore, fetch: Fetcher, s: Store, user: UserId, req: BulkRequest)
    ensures var r := SetBargainingToAllProducts(behaviours, creds, fetch, s, user, req);
      && (!req.Complete() ==> r == Step(s, Failure(MissingFields)))
      && (req.Complete() && req.behavior !in behaviours ==> r == Step(s, Failure(InvalidBehavior)))
      && (req.Complete() && req.behavior in behaviours && user !in creds ==> r == Step(s, Failure(NoShopifyAccess)))
      && (req.Complete() && req.behavior in behaviours && user in creds && fetch(creds[user]).Failure?
          ==> r == Step(s, Failure(FetchFailed)))
      && (req.Complete() && req.behavior in behaviours && user in creds && fetch(creds[user]) == Success([])
          ==> r == Step(s, Failure(NoProductsInStore)))
      && ((&& req.Complete() && req.behavior in behaviours && user in creds && fetch(creds[user]).Success?
           && VariantCount(fetch(creds[user]).value) > 0 && !Savable(behaviours, req.behavior, req.minPrice))
          ==> r == Step(s, Failure(SaveRejected)))
      && (r.reply.Success? <==>
            && req.Complete() && req.behavior in behaviours
            && user in creds && fetch(creds[user]).Success? && |fetch(creds[user]).value| > 0
            && (VariantCount(fetch(creds[user]).value) == 0 || Savable(behaviours, req.behavior, req.minPrice)))
  {
  }

  /** On success every variant of every product holds the requested policy
      for the user, and nothing else changed. */
  lemma AllProductsEffect(behaviours: set<string>, creds: CredentialStore, fetch: Fetcher, s: Store, user: UserId, req: BulkRequest)
    requires SetBargainingToAllProducts(behaviours, creds, fetch, s, user, req).reply.Success?
    requires Savable(behaviours, req.behavior, req.minPrice)
    ensures user in creds && fetch(creds[user]).Success?
    ensures var t := SetBargainingToAllProducts(behaviours, creds, fetch, s, user, req).state;
      && Refreshed(s, t, user, VariantKeys(fetch(creds[user]).value), req.behavior, req.minPrice.value)
      && forall p, v :: p in fetch(creds[user]).value && v in p.variants
           ==> HasPolicy(t, Format(v.id), user, req.behavior, req.minPrice.value)
  {
    var products := fetch(creds[user]).value;
    var t := SetBargainingToAllProducts(behaviours, creds, fetch, s, user, req).state;
    assert t == ApplyToVariants(behaviours, s, user, products, req.behavior, req.minPrice).state;
    ApplyToVariantsEffect(behaviours, s, user, products, req.behavior, req.minPrice);
    forall p, v | p in products && v in p.variants
      ensures HasPolicy(t, Format(v.id), user, req.behavior, req.minPrice.value)
    {
      AppliedCovers(t, user, products, req.behavior, req.minPrice.value, p, v);
    }
  }

  lemma AllProductsIdempotent(behaviours: set<string>, creds: CredentialStore, fetch: Fetcher, s: Store, user: UserId, req: BulkRequest)
    ensures var once := SetBargainingToAllProducts(behaviours, creds, fetch, s, user, req);
            SetBargainingToAllProducts(behaviours, creds, fetch, once.state, user, req) == once
  {
    if req.Complete() && user in creds && fetch(creds[user]).Success? {
      ApplyToVariantsIdempotent(behaviours, s, user, fetch(creds[user]).value, req.behavior, req.minPrice);
    }
  }

  lemma AllProductsConsistent(behaviours: set<string>, creds: CredentialStore, fetch: Fetcher, s: Store, user: UserId, req: BulkRequest)
    requires Consistent(behaviours, s)
    ensures Consistent(behaviours, SetBargainingToAllProducts(behaviours, creds, fetch, s, user, req).state)
  {
    if req.Complete() && user in creds && fetch(creds[user]).Success? {
      ApplyToVariantsConsistent(behaviours, s, user, fetch(creds[user]).value, req.behavior, req.minPrice);
    }
  }

  // ---------------------------------------------------------------------------
  // setBargainingByProduct

  /** The first entry of the by-product flattening whose variant id, written
      in decimal, is exactly the requested productId text. */
  function FindVariant(entries: seq<CatalogEntry>, productId: string): (r: Option<nat>)
    ensures r.Some? ==> r.value < |entries| && Format(entries[r.value].variantId) == productId
    ensures r.Some? ==> forall j :: 0 <= j < r.value ==> Format(entries[j].variantId) != productId
    ensures r.None? <==> forall j :: 0 <= j < |entries| ==> Format(entries[j].variantId) != productId
  {
    FindFirst(entries, (e: CatalogEntry) => Format(e.variantId) == productId)
  }

  /** Item `k` is the first whose variant id, as text, is `productId`. */
  ghost predicate FirstWithId(items: seq<Item>, k: int, productId: string) {
    && 0 <= k < |items|
    && Format(items[k].variant.id) == productId
    && forall j :: 0 <= j < k ==> Format(items[j].variant.id) != productId
  }

  /** Single-variant scope. An invalid behavior reaches a reference to an
      undefined `validBehaviors` and throws before anything is looked up. */
  function SetBargainingByProduct(behaviours: set<string>, creds: CredentialStore, fetch: Fetcher, s: Store, user: UserId, req: ProductRequest)
    : (r: Step<Store, ProductSet>)
    ensures r.reply.Failure? ==> r.state == s
  {
    if !req.Complete() then Step(s, Failure(MissingFields))
    else if req.behavior !in behaviours then Step(s, Failure(BehaviorListUndefined))
    else match LoadCatalog(creds, user, fetch)
      case Failure(e) => Step(s, Failure(e))
      case Success(products) =>
        var entries := CatalogEntries(products);
        match FindVariant(entries, req.productId)
        case None => Step(s, Failure(VariantNotFound))
        case Some(i) =>
          match Upsert(behaviours, s, Format(entries[i].variantId), user, req.behavior, req.minPrice)
          case Failure(e) => Step(s, Failure(e))
          case Success(t) => Step(t, Success(ProductSet(entries[i].variantId, req.minPrice.value)))
  }

  lemma ByProductOutcome(behaviours: set<string>, creds: CredentialStore, fetch: Fetcher, s: Store, user: UserId, req: ProductRequest)
    ensures var r := SetBargainingByProduct(behaviours, creds, fetch, s, user, req);
      && (!req.Complete() ==> r == Step(s, Failure(MissingFields)))
      && (req.Complete() && req.behavior !in behaviours ==> r == Step(s, Failure(BehaviorListUndefined)))
      && (req.Complete() && req.behavior in behaviours && user !in creds ==> r == Step(s, Failure(NoShopifyAccess)))
      && (req.Complete() && req.behavior in behaviours && user in creds && fetch(creds[user]).Failure?
          ==> r == Step(s, Failure(FetchFailed)))
      && ((&& req.Complete() && req.behavior in behaviours && user in creds && fetch(creds[user]).Success?
           && forall p, v :: p in fetch(creds[user]).value && v in p.variants ==> Format(v.id) != req.productId)
          ==> r == Step(s, Failure(VariantNotFound)))
      && ((&& req.Complete() && req.behavior in behaviours && user in creds && fetch(creds[user]).Success?
           && (exists p, v :: p in fetch(creds[user]).value && v in p.variants && Format(v.id) == req.productId)
           && !Savable(behaviours, req.behavior, req.minPrice))
          ==> r == Step(s, Failure(SaveRejected)))
      && (r.reply.Success? <==>
            && user in creds && fetch(creds[user]).Success?
            && (exists p, v :: p in fetch(creds[user]).value && v in p.variants && Format(v.id) == req.productId)
            && Savable(behaviours, req.behavior, req.minPrice))
  {
    if req.Complete() && req.behavior in behaviours
       && user in creds && fetch(creds[user]).Success? {
      var products := fetch(creds[user]).value;
      var items := Flatten(products);
      var entries := CatalogEntries(products);
      match FindVariant(entries, req.productId)
      case None =>
        forall p, v | p in products && v in p.variants
          ensures Format(v.id) != req.productId
        {
          FlattenMember(products, Item(p, v));
          var k :| 0 <= k < |items| && items[k] == Item(p, v);
          assert entries[k].variantId == v.id;
        }
      case Some(i) =>
        FlattenMember(products, items[i]);
        assert entries[i].variantId == items[i].variant.id;
    }
  }

  /** On success the target is the first flattened variant whose id, as text,
      equals the requested productId; the reply echoes that id and the price,
      and the policy for (productId, user) is upserted and nothing else. */
  lemma ByProductEffect(behaviours: set<string>, creds: CredentialStore, fetch: Fetcher, s: Store, user: UserId, req: ProductRequest)
    returns (k: nat)
    ensures var r := SetBargainingByProduct(behaviours, creds, fetch, s, user, req);
      r.reply.Success? ==>
        && user in creds && fetch(creds[user]).Success? && req.minPrice.Amount?
        && FirstWithId(Flatten(fetch(creds[user]).value), k, req.productId)
        && r.reply.value.productId == Flatten(fetch(creds[user]).value)[k].variant.id
        && Format(r.reply.value.productId) == req.productId
        && r.reply.value.minPrice == req.minPrice.value
        && Refreshed(s, r.state, user, [req.productId], req.behavior, req.minPrice.value)
        && HasPolicy(r.state, req.productId, user, req.behavior, req.minPrice.value)
  {
    var r := SetBargainingByProduct(behaviours, creds, fetch, s, user, req);
    if !r.reply.Success? {
      return 0;
    }
    var products := fetch(creds[user]).value;
    var items := Flatten(products);
    var entries := CatalogEntries(products);
    var i := FindVariant(entries, req.productId).value;
    assert entries[i].variantId == items[i].variant.id;
    var up := Upsert(behaviours, s, Format(entries[i].variantId), user, req.behavior, req.minPrice);
    assert r == Step(up.value, Success(ProductSet(entries[i].variantId, req.minPrice.value)));
    forall j | 0 <= j < i
      ensures Format(items[j].variant.id) != req.productId
    {
      assert entries[j].variantId == items[j].variant.id;
    }
    k := i;
  }

  /** A productId with a leading zero never names a variant: ids compare as
      their canonical decimal text, so "0101" does not find variant 101. */
  lemma ByProductLeadingZero(behaviours: set<string>, creds: CredentialStore, fetch: Fetcher, s: Store, user: UserId, req: ProductRequest)
    requires |req.productId| > 1 && req.productId[0] == '0'
    requires req.Complete() && req.behavior in behaviours
    requires user in creds && fetch(creds[user]).Success?
    ensures SetBargainingByProduct(behaviours, creds, fetch, s, user, req) == Step(s, Failure(VariantNotFound))
  {
    forall p, v | p in fetch(creds[user]).value && v in p.variants
      ensures Format(v.id) != req.productId
    {
      FormatNoLeadingZero(v.id);
    }
    ByProductOutcome(behaviours, creds, fetch, s, user, req);
  }

  lemma ByProductIdempotent(behaviours: set<string>, creds: CredentialStore, fetch: Fetcher, s: Store, user: UserId, req: ProductRequest)
    ensures var once := SetBargainingByProduct(behaviours, creds, fetch, s, user, req);
            SetBargainingByProduct(behaviours, creds, fetch, once.state, user, req) == once
  {
    var once := SetBargainingByProduct(behaviours, creds, fetch, s, user, req);
    if once.reply.Success? {
      var entries := CatalogEntries(fetch(creds[user]).value);
      var i := FindVariant(entries, req.productId).value;
      UpsertNoOp(behaviours, once.state, Format(entries[i].variantId), user, req.behavior, req.minPrice);
    }
  }

  lemma ByProductConsistent(behaviours: set<string>, creds: CredentialStore, fetch: Fetcher, s: Store, user: UserId, req: ProductRequest)
    requires Consistent(behaviours, s)
    ensures Consistent(behaviours, SetBargainingByProduct(behaviours, creds, fetch, s, user, req).state)
  {
    var r := SetBargainingByProduct(behaviours, creds, fetch, s, user, req);
    if r.reply.Success? {
      var _ := ByProductEffect(behaviours, creds, fetch, s, user, req);
      RefreshedConsistent(behaviours, s, r.state, user, [req.productId], req.behavior, req.minPrice.value);
    }
  }

  // ---------------------------------------------------------------------------
  // setMinPrice and deleteBargaining: direct edits, looked up by productId only

  function SetMinPrice(s: Store, req: MinPriceRequest): (r: Step<Store, MinPriceSet>)
    ensures r.reply.Failure? ==> r.state == s
    ensures |r.state| == |s|
  {
    if req.productId == "" || req.minPrice.Absent? then Step(s, Failure(MissingFields))
    else if req.minPrice.NotANumber? || req.minPrice.value < 0 then Step(s, Failure(InvalidMinPrice))
    else match FindByProduct(s, req.productId)
      case None => Step(s, Failure(NoBargainingDetails))
      case Some(i) =>
        var updated := s[i].(minPrice := req.minPrice.value, isActive := Some(true));
        Step(s[i := updated], Success(MinPriceSet(req.productId, updated.minPrice, updated.behavior,
                                                   updated.isActive, updated.isAvailable)))
  }

  /** Errors of set-min-price, and when it succeeds: never without an existing
      record of that productId, whoever owns it. */
  lemma SetMinPriceOutcome(s: Store, req: MinPriceRequest)
    ensures var r := SetMinPrice(s, req);
      && (req.productId == "" || req.minPrice.Absent? ==> r.reply == Failure(MissingFields))
      && (req.productId != "" && (req.minPrice.NotANumber? || (req.minPrice.Amount? && req.minPrice.value < 0))
          ==> r.reply == Failure(InvalidMinPrice))
      && (r.reply.Success? <==>
            req.productId != "" && req.minPrice.Amount? && req.minPrice.value >= 0
            && exists i :: 0 <= i < |s| && s[i].productId == req.productId)
      && ((req.productId != "" && req.minPrice.Amount? && req.minPrice.value >= 0
           && forall i :: 0 <= i < |s| ==> s[i].productId != req.productId)
          ==> r == Step(s, Failure(NoBargainingDetails)))
  {
  }

  /** On success the first record with that productId gets the new price and
      `isActive = true`; its other fields and every other record are kept. */
  lemma SetMinPriceEffect(s: Store, req: MinPriceRequest)
    requires SetMinPrice(s, req).reply.Success?
    ensures var r := SetMinPrice(s, req);
      exists i :: 0 <= i < |s|
        && s[i].productId == req.productId
        && (forall j :: 0 <= j < i ==> s[j].productId != req.productId)
        && r.state[i] == Record(s[i].productId, s[i].behavior, req.minPrice.value, s[i].userId, Some(true), s[i].isAvailable)
        && (forall j :: 0 <= j < |s| && j != i ==> r.state[j] == s[j])
        && r.reply.value == MinPriceSet(req.productId, req.minPrice.value, s[i].behavior, Some(true), s[i].isAvailable)
  {
    var i := FindByProduct(s, req.productId).value;
    assert SetMinPrice(s, req).state[i] == Record(s[i].productId, s[i].behavior, req.minPrice.value, s[i].userId, Some(true), s[i].isAvailable);
  }

  lemma SetMinPriceConsistent(behaviours: set<string>, s: Store, req: MinPriceRequest)
    requires Consistent(behaviours, s)
    ensures Consistent(behaviours, SetMinPrice(s, req).state)
  {
    var t := SetMinPrice(s, req).state;
    forall j | 0 <= j < |s|
      ensures KeyOf(t[j]) == KeyOf(s[j])
    {
    }
  }

  function DeleteBargaining(s: Store, productId: string): (r: Step<Store, Deactivated>)
    ensures r.reply.Failure? ==> r.state == s
    ensures |r.state| == |s|
  {
    if productId == "" then Step(s, Failure(MissingFields))
    else match FindByProduct(s, productId)
      case None => Step(s, Failure(NoBargainingDetails))
      case Some(i) =>
        var updated := s[i].(isActive := Some(false), minPrice := 0);
        Step(s[i := updated], Success(Deactivated(productId, updated.isActive, updated.minPrice)))
  }

  /** Soft delete: the first record with that productId ends inactive with
      price 0 whatever its price was; behavior, owner and the record count
      are kept; no match is a 404 and nothing is created. */
  lemma DeleteEffect(s: Store, productId: string)
    ensures var r := DeleteBargaining(s, productId);
      && (productId == "" ==> r == Step(s, Failure(MissingFields)))
      && (r.reply.Success? <==> productId != "" && exists i :: 0 <= i < |s| && s[i].productId == productId)
      && ((productId != "" && forall i :: 0 <= i < |s| ==> s[i].productId != productId)
          ==> r == Step(s, Failure(NoBargainingDetails)))
      && (r.reply.Success? ==>
            && r.reply.value == Deactivated(productId, Some(false), 0)
            && exists i :: 0 <= i < |s|
                 && s[i].productId == productId
                 && (forall j :: 0 <= j < i ==> s[j].productId != productId)
                 && r.state[i] == Record(productId, s[i].behavior, 0, s[i].userId, Some(false), s[i].isAvailable)
                 && (forall j :: 0 <= j < |s| && j != i ==> r.state[j] == s[j]))
  {
    var r := DeleteBargaining(s, productId);
    if r.reply.Success? {
      var i := FindByProduct(s, productId).value;
      assert r.state[i] == Record(productId, s[i].behavior, 0, s[i].userId, Some(false), s[i].isAvailable);
    }
  }

  lemma DeleteIdempotent(s: Store, productId: string)
    ensures var once := DeleteBargaining(s, productId);
            DeleteBargaining(once.state, productId) == once
  {
    var once := DeleteBargaining(s, productId);
    if once.reply.Success? {
      var i := FindByProduct(s, productId).value;
      forall j | 0 <= j < |s|
        ensures once.state[j].productId == s[j].productId
      {
      }
      assert FindByProduct(once.state, productId) == Some(i);
      assert once.state[i := once.state[i]] == once.state;
    }
  }

  lemma DeleteConsistent(behaviours: set<string>, s: Store, productId: string)
    requires Consistent(behaviours, s)
    ensures Consistent(behaviours, DeleteBargaining(s, productId).state)
  {
    var t := DeleteBargaining(s, productId).state;
    forall j | 0 <= j < |s|
      ensures KeyOf(t[j]) == KeyOf(s[j])
    {
    }
  }

  // ---------------------------------------------------------------------------
  // getBargainingDetails

  function ListingOf(r: Record): Listing {
    Listing(r.productId, r.minPrice, r.behavior, r.isAvailable, r.isActive)
  }

  /** Every stored record, of every user, projected to the listed fields. */
  function GetBargainingDetails(s: Store): (r: seq<Listing>)
    ensures |r| == |s|
  {
    seq(|s|, i requires 0 <= i < |s| => ListingOf(s[i]))
  }

  /** The listing drops the owner and nothing else: with the owner put back,
      each entry is the stored record. */
  lemma ListingRoundTrip(s: Store)
    ensures forall i :: 0 <= i < |s| ==>
      var l := GetBargainingDetails(s)[i];
      Record(l.productId, l.behavior, l.minPrice, s[i].userId, l.isActive, l.isAvailable) == s[i]
  {
  }

  // ---------------------------------------------------------------------------
  // A worked example: Shirt ("Apparel", variants 101 and 102) and Mug ("Home",
  // variant 201).

  const Shirt := Product(1, "Shirt", Some("Apparel"), [Variant(101, "S", 20, None, "", "", true, 1, "kg"),
                                                      Variant(102, "M", 20, Some(3), "", "", true, 1, "kg")])
  const Mug := Product(2, "Mug", Some("Home"), [Variant(201, "Mug", 8, Some(5), "", "", true, 1, "kg")])
  const Discount := "discount_10pct"

  lemma ExampleTargets()
    ensures InCategory([Shirt, Mug], "Apparel") == [Shirt]
    ensures VariantKeys([Shirt]) == ["101", "102"]
  {
    assert [Shirt, Mug][1..] == [Mug];
    assert [Shirt, Mug][1..][1..] == [];
    assert Flatten([Shirt]) == [Item(Shirt, Shirt.variants[0]), Item(Shirt, Shirt.variants[1])] by {
      assert [Shirt][1..] == [];
    }
    assert Format(101) == "101" by {
      assert Format(10) == "10";
    }
    assert Format(102) == "102" by {
      assert Format(10) == "10";
    }
    var keys := VariantKeys([Shirt]);
    assert |keys| == 2;
    assert keys[0] == VariantKey(Item(Shirt, Shirt.variants[0])) == "101";
    assert keys[1] == VariantKey(Item(Shirt, Shirt.variants[1])) == "102";
  }

  lemma ExampleWrites(user: UserId)
    ensures UpsertAll({Discount}, [], user, ["101", "102"], Discount, Amount(15))
         == Saved([Fresh("101", user, Discount, 15), Fresh("102", user, Discount, 15)], None)
  {
    var one := [Fresh("101", user, Discount, 15)];
    assert FindKey([], "101", user) == None;
    assert Upsert({Discount}, [], "101", user, Discount, Amount(15)) == Success(one) by {
      assert [] + one == one;
    }
    assert FindKey(one, "102", user) == None by {
      assert KeyOf(one[0]) != ("102", user);
    }
    assert ["101", "102"][1..] == ["102"];
    assert ["102"][1..] == [];
  }

  /** Applying a policy to "Apparel" on an empty store creates exactly the two
      Shirt policies and none for the Mug. */
  lemma CategoryExample(user: UserId, creds: CredentialStore)
    requires user in creds
    ensures SetBargainingByCategory({Discount}, creds, (c: Credentials) => Success([Shirt, Mug]), [], user,
                                    CategoryRequest("Apparel", Discount, Amount(15)))
         == Step([Fresh("101", user, Discount, 15), Fresh("102", user, Discount, 15)], Success(Ack))
  {
    ExampleTargets();
    ExampleWrites(user);
  }
}

=== FILE: catalog.dfy ===
/** The Shopify catalog as the handlers see it after `GET products.json`:
    products holding variants, the product-then-variant flattening every
    handler performs, the `product_type || "Uncategorized"` category rule,
    and the credential lookup that must succeed before any fetch. */
module Catalog {
  import opened Wrappers
  import opened Api

  type UserId = nat

  /** One variant as returned by the Admin API; `inventoryQuantity` is absent
      (`None`) when the API leaves it out or sends null. Prices and weights
      are whole numbers of the smallest unit. */
  datatype Variant = Variant(
    id: nat,
    title: string,
    price: int,
    inventoryQuantity: Option<int>,
    createdAt: string,
    updatedAt: string,
    requiresShipping: bool,
    weight: int,
    weightUnit: string)

  datatype Product = Product(id: nat, title: string, productType: Option<string>, variants: seq<Variant>)

  /** A variant together with the product it belongs to. */
  datatype Item = Item(product: Product, variant: Variant)

  const Uncategorized: string := "Uncategorized"

  /** `product.product_type || "Uncategorized"`: a missing or empty type falls
      into the "Uncategorized" bucket. */
  function CategoryOf(p: Product): (c: string)
    ensures c != ""
    ensures p.productType.None? || p.productType == Some("") ==> c == Uncategorized
    ensures p.productType.Some? && p.productType.value != "" ==> c == p.productType.value
  {
    match p.productType
    case None => Uncategorized
    case Some(t) => if t == "" then Uncategorized else t
  }

  /** `variant.inventory_quantity || 0`. */
  function InventoryOf(v: Variant): int {
    match v.inventoryQuantity
    case None => 0
    case Some(q) => q
  }

  /** Total number of variants over all products. */
  function VariantCount(ps: seq<Product>): nat
    decreases |ps|
  {
    if |ps| == 0 then 0 else |ps[0].variants| + VariantCount(ps[1..])
  }

  /** Position of product `i`'s first variant in the flattened sequence. */
  function Offset(ps: seq<Product>, i: nat): nat
    requires i <= |ps|
  {
    VariantCount(ps[..i])
  }

  function ItemsOf(p: Product): (r: seq<Item>)
    ensures |r| == |p.variants|
    ensures forall j :: 0 <= j < |r| ==> r[j] == Item(p, p.variants[j])
  {
    seq(|p.variants|, j requires 0 <= j < |p.variants| => Item(p, p.variants[j]))
  }

  /** `products.flatMap(p => p.variants.map(v => ...))`: one item per variant,
      product by product, variants in their own order. */
  function Flatten(ps: seq<Product>): (r: seq<Item>)
    ensures |r| == VariantCount(ps)
    decreases |ps|
  {
    if |ps| == 0 then [] else ItemsOf(ps[0]) + Flatten(ps[1..])
  }

  /** Variant `j` of product `i` sits at `Offset(ps, i) + j`. */
  lemma {:induction false} FlattenAt(ps: seq<Product>, i: nat, j: nat)
    requires i < |ps| && j < |ps[i].variants|
    ensures Offset(ps, i) + j < |Flatten(ps)|
    ensures Flatten(ps)[Offset(ps, i) + j] == Item(ps[i], ps[i].variants[j])
    decreases i
  {
    if i == 0 {
      assert ps[..0] == [];
    } else {
      var tail := ps[1..];
      assert ps[..i][0] == ps[0];
      assert ps[..i][1..] == tail[..i - 1];
      assert Offset(ps, i) == |ps[0].variants| + Offset(tail, i - 1);
      FlattenAt(tail, i - 1, j);
    }
  }

  /** The flattening holds an item exactly for each variant of each product. */
  lemma {:induction false} FlattenMember(ps: seq<Product>, it: Item)
    ensures it in Flatten(ps) <==> it.product in ps && it.variant in it.product.variants
    decreases |ps|
  {
    if |ps| > 0 {
      FlattenMember(ps[1..], it);
      assert it in Flatten(ps) <==> it in ItemsOf(ps[0]) || it in Flatten(ps[1..]);
      if it.product == ps[0] && it.variant in it.product.variants {
        var j :| 0 <= j < |ps[0].variants| && ps[0].variants[j] == it.variant;
        assert ItemsOf(ps[0])[j] == it;
      }
      assert it.product in ps <==> it.product == ps[0] || it.product in ps[1..];
    }
  }

  lemma {:induction false} FlattenAppend(a: seq<Product>, b: seq<Product>)
    ensures Flatten(a + b) == Flatten(a) + Flatten(b)
    decreases |a|
  {
    if |a| > 0 {
      assert (a + b)[0] == a[0];
      assert (a + b)[1..] == a[1..] + b;
      FlattenAppend(a[1..], b);
    } else {
      assert a + b == b;
    }
  }

  /** The products whose category (as `CategoryOf` defaults it) is the
      requested one, in catalog order. */
  function InCategory(ps: seq<Product>, category: string): (r: seq<Product>)
    ensures |r| <= |ps|
    ensures forall p :: p in r <==> p in ps && CategoryOf(p) == category
    ensures |r| == 0 <==> forall p :: p in ps ==> CategoryOf(p) != category
    decreases |ps|
  {
    if |ps| == 0 then []
    else (if CategoryOf(ps[0]) == category then [ps[0]] else []) + InCategory(ps[1..], category)
  }

  lemma {:induction false} InCategoryAppend(a: seq<Product>, b: seq<Product>, category: string)
    ensures InCategory(a + b, category) == InCategory(a, category) + InCategory(b, category)
    decreases |a|
  {
    if |a| > 0 {
      assert (a + b)[0] == a[0];
      assert (a + b)[1..] == a[1..] + b;
      InCategoryAppend(a[1..], b, category);
    } else {
      assert a + b == b;
    }
  }

  /** A field-by-field projection of every item, in order. */
  function MapItems<U>(xs: seq<Item>, f: Item -> U): (r: seq<U>)
    ensures |r| == |xs|
    ensures forall k :: 0 <= k < |xs| ==> r[k] == f(xs[k])
  {
    seq(|xs|, k requires 0 <= k < |xs| => f(xs[k]))
  }

  lemma MapItemsAppend<U>(a: seq<Item>, b: seq<Item>, f: Item -> U)
    ensures MapItems(a + b, f) == MapItems(a, f) + MapItems(b, f)
  {
  }

  /** A ShopifyDetails document: what the URL and the access-token header are built from. */
  datatype Credentials = Credentials(accessToken: string, shopName: string, apiVersion: string)

  type CredentialStore = map<UserId, Credentials>

  /** The `axios.get` of `products.json`, as a function of the stored credentials. */
  type Fetcher = Credentials -> Result<seq<Product>, FetchError>

  datatype FetchError = FetchError(reason: string)

  /** `ShopifyDetails.findOne({userId})` then the catalog fetch: no credentials
      is a 404 reported before anything is fetched; a failed fetch aborts. */
  function LoadCatalog(creds: CredentialStore, user: UserId, fetch: Fetcher): (r: Result<seq<Product>, ApiError>)
    ensures r == Failure(NoShopifyAccess) <==> user !in creds
    ensures r == Failure(FetchFailed) <==> user in creds && fetch(creds[user]).Failure?
    ensures r.Success? <==> user in creds && fetch(creds[user]).Success?
    ensures r.Success? ==> r.value == fetch(creds[user]).value
  {
    if user !in creds then Failure(NoShopifyAccess)
    else match fetch(creds[user])
      case Failure(_) => Failure(FetchFailed)
      case Success(products) => Success(products)
  }

  /** Without stored credentials the outcome does not depend on what a fetch
      would return: no request is made. */
  lemma NoCredentialsNoFetch(creds: CredentialStore, user: UserId, f1: Fetcher, f2: Fetcher)
    requires user !in creds
    ensures LoadCatalog(creds, user, f1) == LoadCatalog(creds, user, f2) == Failure(NoShopifyAccess)
  {
  }
}

=== FILE: decimal.dfy ===
/** The decimal text of a non-negative integer: JavaScript's `Number#toString()`
    and mongoose's cast of a numeric Shopify id to the `String` path
    `productId`, for ids in the range where both are exact. */
module Decimal {

  function DigitChar(d: nat): char
    requires d < 10
  {
    (d + '0' as int) as char
  }

  function DigitValue(c: char): int {
    c as int - '0' as int
  }

  predicate IsDigit(c: char) {
    '0' <= c <= '9'
  }

  /** Decimal text of `n`, most significant digit first, no leading zero. */
  function Format(n: nat): (s: string)
    ensures |s| > 0
    ensures forall k :: 0 <= k < |s| ==> IsDigit(s[k])
    decreases n
  {
    if n < 10 then [DigitChar(n)] else Format(n / 10) + [DigitChar(n % 10)]
  }

  /** Value of a digit string read most significant digit first. */
  function Parse(s: string): int
    decreases |s|
  {
    if |s| == 0 then 0 else Parse(s[..|s| - 1]) * 10 + DigitValue(s[|s| - 1])
  }

  /** Reading back the text of `n` gives `n`. */
  lemma {:induction false} ParseFormat(n: nat)
    ensures Parse(Format(n)) == n
    decreases n
  {
    if n >= 10 {
      var s := Format(n);
      assert s[..|s| - 1] == Format(n / 10);
      ParseFormat(n / 10);
    }
  }

  /** Two ids compare equal as strings exactly when they are the same id. */
  lemma FormatInjective(a: nat, b: nat)
    ensures Format(a) == Format(b) <==> a == b
  {
    ParseFormat(a);
    ParseFormat(b);
  }

  /** The text of an id starts with '0' only when it is "0" itself. */
  lemma {:induction false} FormatNoLeadingZero(n: nat)
    ensures Format(n)[0] == '0' ==> Format(n) == "0"
    decreases n
  {
    if n >= 10 {
      FormatNoLeadingZero(n / 10);
      assert Format(n)[0] == Format(n / 10)[0];
      if Format(n / 10)[0] == '0' {
        assert n / 10 == 0 by { FormatInjective(n / 10, 0); }
      }
    }
  }
}

=== FILE: find.dfy ===
/** First-match search, the common meaning of Mongo's `findOne` over a
    collection in natural order and of JavaScript's `Array.prototype.find`. */
module Find {
  import opened Wrappers

  /** The index of the first element satisfying `matches`, if any. */
  function FindFirst<T>(xs: seq<T>, matches: T -> bool): (r: Option<nat>)
    ensures r.Some? ==> r.value < |xs| && matches(xs[r.value])
    ensures r.Some? ==> forall j :: 0 <= j < r.value ==> !matches(xs[j])
    ensures r.None? <==> forall j :: 0 <= j < |xs| ==> !matches(xs[j])
  {
    if |xs| == 0 then None
    else if matches(xs[0]) then Some(0)
    else match FindFirst(xs[1..], matches)
      case None => None
      case Some(i) => Some(i + 1)
  }
}

=== FILE: policy_store.dfy ===
/** The BargainingDetails collection: its record type and schema validators,
    and the find-then-update-or-create upsert keyed by (productId, userId)
    that all three bargaining write scopes end in. */
module PolicyStore {
  import opened Wrappers
  import opened Api
  import opened Find
  import opened Catalog

  /** A `minPrice` request field: left out (`undefined`), something that does
      not cast to a Number, or a number. */
  datatype PriceInput = Absent | NotANumber | Amount(value: int)

  /** A stored bargaining policy. The schema declares `productId`, `behavior`,
      `minPrice` and `userId`. `isActive`, undeclared, is written only by
      set-min-price and the soft delete; `isAvailable` is never written, only
      read back. A created record has neither. */
  datatype Record = Record(
    productId: string,
    behavior: string,
    minPrice: int,
    userId: UserId,
    isActive: Option<bool>,
    isAvailable: Option<bool>)

  /** The collection in natural order; `findOne` returns the first match. */
  type Store = seq<Record>

  function KeyOf(r: Record): (string, UserId) {
    (r.productId, r.userId)
  }

  /** The schema's validators: required string paths are non-empty, `behavior`
      is one of BARGAIN_BEHAVIOUR, `minPrice` is at least 0. */
  predicate ValidRecord(behaviours: set<string>, r: Record) {
    r.productId != "" && r.behavior != "" && r.behavior in behaviours && r.minPrice >= 0
  }

  /** Whether a save carrying this behavior and price passes cast and validation. */
  predicate Savable(behaviours: set<string>, behavior: string, price: PriceInput) {
    price.Amount? && price.value >= 0 && behavior != "" && behavior in behaviours
  }

  /** At most one record per (productId, userId). */
  ghost predicate UniqueKeys(s: Store) {
    forall i, j :: 0 <= i < j < |s| ==> KeyOf(s[i]) != KeyOf(s[j])
  }

  /** The store invariant the handlers keep: unique keys, every record valid. */
  ghost predicate Consistent(behaviours: set<string>, s: Store) {
    UniqueKeys(s) && forall i :: 0 <= i < |s| ==> ValidRecord(behaviours, s[i])
  }

  /** `BargainingDetails.findOne({productId, userId})`. */
  function FindKey(s: Store, pid: string, user: UserId): (r: Option<nat>)
    ensures r.Some? ==> r.value < |s| && KeyOf(s[r.value]) == (pid, user)
    ensures r.Some? ==> forall j :: 0 <= j < r.value ==> KeyOf(s[j]) != (pid, user)
    ensures r.None? <==> forall j :: 0 <= j < |s| ==> KeyOf(s[j]) != (pid, user)
  {
    FindFirst(s, (x: Record) => KeyOf(x) == (pid, user))
  }

  /** `BargainingDetails.findOneAndUpdate({productId}, ...)`'s lookup: by
      productId alone, whichever user owns the record. */
  function FindByProduct(s: Store, pid: string): (r: Option<nat>)
    ensures r.Some? ==> r.value < |s| && s[r.value].productId == pid
    ensures r.Some? ==> forall j :: 0 <= j < r.value ==> s[j].productId != pid
    ensures r.None? <==> forall j :: 0 <= j < |s| ==> s[j].productId != pid
  {
    FindFirst(s, (x: Record) => x.productId == pid)
  }

  function Overwrite(r: Record, behavior: string, minPrice: int): Record {
    r.(behavior := behavior, minPrice := minPrice)
  }

  function Fresh(pid: string, user: UserId, behavior: string, minPrice: int): Record {
    Record(pid, behavior, minPrice, user, None, None)
  }

  /** The first record for the key carries this behavior and price. */
  predicate HasPolicy(s: Store, pid: string, user: UserId, behavior: string, minPrice: int) {
    match FindKey(s, pid, user)
    case None => false
    case Some(i) => s[i].behavior == behavior && s[i].minPrice == minPrice
  }

  /** `t` is `s` after upserts of (behavior, minPrice) for `user` and the ids
      `pids`: every old record is kept in place, either untouched or, when its
      key is a target, with behavior and minPrice overwritten; every appended
      record is a fresh one for a target whose key no earlier record has. */
  ghost predicate Refreshed(s: Store, t: Store, user: UserId, pids: seq<string>, behavior: string, minPrice: int) {
    && |s| <= |t|
    && (forall i :: 0 <= i < |s| ==>
          t[i] == s[i] || (s[i].userId == user && s[i].productId in pids && t[i] == Overwrite(s[i], behavior, minPrice)))
    && (forall i :: |s| <= i < |t| ==>
          t[i].productId in pids && t[i] == Fresh(t[i].productId, user, behavior, minPrice))
    && (forall i, j :: 0 <= j < i < |t| && |s| <= i ==> KeyOf(t[j]) != KeyOf(t[i]))
  }

  /** Every target id has a policy with this behavior and price for `user`. */
  ghost predicate Applied(t: Store, user: UserId, pids: seq<string>, behavior: string, minPrice: int) {
    forall k :: 0 <= k < |pids| ==> HasPolicy(t, pids[k], user, behavior, minPrice)
  }

  /** One find-then-update-or-create: the first record for the key gets the new
      behavior and minPrice, or a record is created; the save is refused, and
      nothing written, when the schema rejects the document. */
  function Upsert(behaviours: set<string>, s: Store, pid: string, user: UserId, behavior: string, price: PriceInput)
    : (r: Result<Store, ApiError>)
    ensures r.Success? <==> pid != "" && Savable(behaviours, behavior, price)
    ensures r.Failure? ==> r.error == SaveRejected
    ensures r.Success? ==> Refreshed(s, r.value, user, [pid], behavior, price.value)
    ensures r.Success? ==> HasPolicy(r.value, pid, user, behavior, price.value)
    ensures r.Success? ==> |r.value| == |s| + (if FindKey(s, pid, user).None? then 1 else 0)
  {
    if !price.Amount? then Failure(SaveRejected)
    else
      var idx := FindKey(s, pid, user);
      var doc := if idx.Some? then Overwrite(s[idx.value], behavior, price.value)
                 else Fresh(pid, user, behavior, price.value);
      if !ValidRecord(behaviours, doc) then Failure(SaveRejected)
      else if idx.Some? then
        var t := s[idx.value := doc];
        assert forall j :: 0 <= j < |t| ==> KeyOf(t[j]) == KeyOf(s[j]);
        assert FindKey(t, pid, user) == idx;
        Success(t)
      else
        var t := s + [doc];
        assert KeyOf(t[|s|]) == (pid, user);
        assert FindKey(t, pid, user) == Some(|s|);
        Success(t)
  }

  /** Outcome of a batch of saves: the store afterwards and the first error. */
  datatype Saved = Saved(store: Store, error: Option<ApiError>)

  /** The per-variant loop `for (...) { findOne; save or create }`, stopping
      at the first save that throws. */
  function UpsertAll(behaviours: set<string>, s: Store, user: UserId, pids: seq<string>, behavior: string, price: PriceInput)
    : (r: Saved)
    requires forall k :: 0 <= k < |pids| ==> pids[k] != ""
    ensures r.error.None? <==> |pids| == 0 || Savable(behaviours, behavior, price)
    ensures r.error.Some? ==> r.error.value == SaveRejected
    ensures r.error.Some? ==> r.store == s
    decreases |pids|
  {
    if |pids| == 0 then Saved(s, None)
    else match Upsert(behaviours, s, pids[0], user, behavior, price)
      case Failure(e) => Saved(s, Some(e))
      case Success(s1) => UpsertAll(behaviours, s1, user, pids[1..], behavior, price)
  }

  lemma RefreshedTrans(s: Store, s1: Store, t: Store, user: UserId, p1: seq<string>, p2: seq<string>, behavior: string, minPrice: int)
    requires Refreshed(s, s1, user, p1, behavior, minPrice)
    requires Refreshed(s1, t, user, p2, behavior, minPrice)
    ensures Refreshed(s, t, user, p1 + p2, behavior, minPrice)
  {
    forall i | 0 <= i < |s1|
      ensures KeyOf(t[i]) == KeyOf(s1[i])
    {
    }
    forall i | 0 <= i < |s|
      ensures KeyOf(s1[i]) == KeyOf(s[i])
    {
    }
  }

  /** An upsert of another key never moves or alters the policy already in
      force for a key with the same behavior and price. */
  lemma HasPolicyStable(s: Store, t: Store, user: UserId, pids: seq<string>, behavior: string, minPrice: int, pid: string, owner: UserId)
    requires Refreshed(s, t, user, pids, behavior, minPrice)
    requires HasPolicy(s, pid, owner, behavior, minPrice)
    ensures HasPolicy(t, pid, owner, behavior, minPrice)
  {
    var i := FindKey(s, pid, owner).value;
    forall j | 0 <= j < |s|
      ensures KeyOf(t[j]) == KeyOf(s[j])
    {
    }
    assert FindKey(t, pid, owner) == Some(i);
  }

  /** One step of the batch: the first upsert followed by the rest. */
  lemma ComposeStep(s: Store, s1: Store, t: Store, user: UserId, pids: seq<string>, behavior: string, minPrice: int)
    requires |pids| > 0
    requires Refreshed(s, s1, user, [pids[0]], behavior, minPrice)
    requires HasPolicy(s1, pids[0], user, behavior, minPrice)
    requires Refreshed(s1, t, user, pids[1..], behavior, minPrice)
    requires Applied(t, user, pids[1..], behavior, minPrice)
    ensures Refreshed(s, t, user, pids, behavior, minPrice)
    ensures Applied(t, user, pids, behavior, minPrice)
  {
    RefreshedTrans(s, s1, t, user, [pids[0]], pids[1..], behavior, minPrice);
    assert [pids[0]] + pids[1..] == pids;
    HasPolicyStable(s1, t, user, pids[1..], behavior, minPrice, pids[0], user);
    forall k | 0 <= k < |pids|
      ensures HasPolicy(t, pids[k], user, behavior, minPrice)
    {
      if k > 0 {
        assert pids[k] == pids[1..][k - 1];
      }
    }
  }

  /** A successful batch leaves a policy with the requested behavior and price
      for every target id, and changes nothing else. */
  lemma {:induction false} UpsertAllEffect(behaviours: set<string>, s: Store, user: UserId, pids: seq<string>, behavior: string, price: PriceInput)
    requires forall k :: 0 <= k < |pids| ==> pids[k] != ""
    requires Savable(behaviours, behavior, price)
    ensures Refreshed(s, UpsertAll(behaviours, s, user, pids, behavior, price).store, user, pids, behavior, price.value)
    ensures Applied(UpsertAll(behaviours, s, user, pids, behavior, price).store, user, pids, behavior, price.value)
    decreases |pids|
  {
    if |pids| == 0 {
      assert Refreshed(s, s, user, pids, behavior, price.value);
    } else {
      var s1 := Upsert(behaviours, s, pids[0], user, behavior, price).value;
      UpsertAllEffect(behaviours, s1, user, pids[1..], behavior, price);
      var t := UpsertAll(behaviours, s1, user, pids[1..], behavior, price).store;
      ComposeStep(s, s1, t, user, pids, behavior, price.value);
    }
  }

  /** Re-applying a behavior and price that is already in force is a no-op. */
  lemma UpsertNoOp(behaviours: set<string>, s: Store, pid: string, user: UserId, behavior: string, price: PriceInput)
    requires pid != "" && Savable(behaviours, behavior, price)
    requires HasPolicy(s, pid, user, behavior, price.value)
    ensures Upsert(behaviours, s, pid, user, behavior, price) == Success(s)
  {
    var i := FindKey(s, pid, user).value;
    assert Overwrite(s[i], behavior, price.value) == s[i];
    assert s[i := s[i]] == s;
  }

  lemma {:induction false} UpsertAllStable(behaviours: set<string>, s: Store, user: UserId, pids: seq<string>, behavior: string, price: PriceInput)
    requires forall k :: 0 <= k < |pids| ==> pids[k] != ""
    requires Savable(behaviours, behavior, price)
    requires Applied(s, user, pids, behavior, price.value)
    ensures UpsertAll(behaviours, s, user, pids, behavior, price) == Saved(s, None)
    decreases |pids|
  {
    if |pids| > 0 {
      UpsertNoOp(behaviours, s, pids[0], user, behavior, price);
      assert Applied(s, user, pids[1..], behavior, price.value) by {
        forall k | 0 <= k < |pids[1..]|
          ensures HasPolicy(s, pids[1..][k], user, behavior, price.value)
        {
          assert pids[1..][k] == pids[k + 1];
        }
      }
      UpsertAllStable(behaviours, s, user, pids[1..], behavior, price);
    }
  }

  /** Running the same batch twice leaves the same store and outcome as once. */
  lemma UpsertAllIdempotent(behaviours: set<string>, s: Store, user: UserId, pids: seq<string>, behavior: string, price: PriceInput)
    requires forall k :: 0 <= k < |pids| ==> pids[k] != ""
    ensures var once := UpsertAll(behaviours, s, user, pids, behavior, price);
            UpsertAll(behaviours, once.store, user, pids, behavior, price) == once
  {
    var once := UpsertAll(behaviours, s, user, pids, behavior, price);
    if Savable(behaviours, behavior, price) {
      UpsertAllEffect(behaviours, s, user, pids, behavior, price);
      UpsertAllStable(behaviours, once.store, user, pids, behavior, price);
    }
  }

  /** Upserts of valid documents keep the store invariant: keys stay unique
      and every record satisfies the schema. */
  lemma RefreshedConsistent(behaviours: set<string>, s: Store, t: Store, user: UserId, pids: seq<string>, behavior: string, minPrice: int)
    requires Consistent(behaviours, s)
    requires Refreshed(s, t, user, pids, behavior, minPrice)
    requires forall k :: 0 <= k < |pids| ==> pids[k] != ""
    requires behavior != "" && behavior in behaviours && minPrice >= 0
    ensures Consistent(behaviours, t)
  {
    forall i | 0 <= i < |s|
      ensures KeyOf(t[i]) == KeyOf(s[i])
    {
    }
    forall i | |s| <= i < |t|
      ensures ValidRecord(behaviours, t[i])
    {
      assert t[i].productId in pids;
    }
  }
}

=== FILE: shopify.dfy ===
/** The Shopify controller: the flat product listing, the listing grouped by
    product type, and the create-once / patch rules for a user's stored
    Shopify credentials. */
module Shopify {
  import opened Wrappers
  import opened Api
  import opened Catalog

  /** An entry of the flat listing. */
  datatype ListedVariant = ListedVariant(
    id: nat,
    name: string,
    productType: string,
    price: int,
    inventoryQuantity: int,
    createdAt: string,
    updatedAt: string,
    requiresShipping: bool,
    weight: int,
    weightUnit: string)

  /** An entry of a category bucket: the same fields without the type. */
  datatype BucketVariant = BucketVariant(
    id: nat,
    name: string,
    price: int,
    inventoryQuantity: int,
    createdAt: string,
    updatedAt: string,
    requiresShipping: bool,
    weight: int,
    weightUnit: string)

  /** The `collections` object: product type to its variants. */
  type Collections = map<string, seq<BucketVariant>>

  function ListedOf(it: Item): ListedVariant {
    var v := it.variant;
    ListedVariant(v.id, it.product.title, CategoryOf(it.product), v.price, InventoryOf(v),
                  v.createdAt, v.updatedAt, v.requiresShipping, v.weight, v.weightUnit)
  }

  function BucketOf(it: Item): BucketVariant {
    var v := it.variant;
    BucketVariant(v.id, it.product.title, v.price, InventoryOf(v),
                  v.createdAt, v.updatedAt, v.requiresShipping, v.weight, v.weightUnit)
  }

  // ---------------------------------------------------------------------------
  // getAllProducts

  /** The flat listing: one entry per variant, product by product. */
  function ListVariants(ps: seq<Product>): (r: seq<ListedVariant>)
    ensures |r| == VariantCount(ps)
  {
    MapItems(Flatten(ps), ListedOf)
  }

  /** Variant `j` of product `i` is listed at `Offset(ps, i) + j`, named after
      its product, typed by `product_type || "Uncategorized"`, with
      `inventory_quantity || 0` and every other field copied. */
  lemma ListVariantsAt(ps: seq<Product>, i: nat, j: nat)
    requires i < |ps| && j < |ps[i].variants|
    ensures Offset(ps, i) + j < |ListVariants(ps)|
    ensures var e := ListVariants(ps)[Offset(ps, i) + j];
      var p := ps[i];
      var v := p.variants[j];
      && e.id == v.id
      && e.name == p.title
      && (p.productType.None? || p.productType == Some("") ==> e.productType == Uncategorized)
      && (p.productType.Some? && p.productType.value != "" ==> e.productType == p.productType.value)
      && e.price == v.price
      && (v.inventoryQuantity.None? ==> e.inventoryQuantity == 0)
      && (v.inventoryQuantity.Some? ==> e.inventoryQuantity == v.inventoryQuantity.value)
      && e.createdAt == v.createdAt && e.updatedAt == v.updatedAt
      && e.requiresShipping == v.requiresShipping
      && e.weight == v.weight && e.weightUnit == v.weightUnit
  {
    FlattenAt(ps, i, j);
  }

  function GetAllProducts(creds: CredentialStore, user: UserId, fetch: Fetcher): (r: Result<seq<ListedVariant>, ApiError>)
    ensures r.Failure? ==> r.error == NoShopifyAccess || r.error == FetchFailed
    ensures r.Success? ==> user in creds && fetch(creds[user]).Success?
    ensures r.Success? ==> |r.value| == VariantCount(fetch(creds[user]).value)
    ensures r.Success? ==> r.value == ListVariants(fetch(creds[user]).value)
    ensures user in creds && fetch(creds[user]).Success? ==> r.Success?
    ensures r == Failure(NoShopifyAccess) <==> user !in creds
    ensures r == Failure(FetchFailed) <==> user in creds && fetch(creds[user]).Failure?
  {
    match LoadCatalog(creds, user, fetch)
    case Failure(e) => Failure(e)
    case Success(products) => Success(ListVariants(products))
  }

  // ---------------------------------------------------------------------------
  // getAllProductsByCategory

  /** Bucket entries of every variant of `ps`, in order. */
  function BucketsOf(ps: seq<Product>): (r: seq<BucketVariant>)
    ensures |r| == VariantCount(ps)
  {
    MapItems(Flatten(ps), BucketOf)
  }

  lemma BucketsOfAppend(a: seq<Product>, b: seq<Product>)
    ensures BucketsOf(a + b) == BucketsOf(a) + BucketsOf(b)
  {
    FlattenAppend(a, b);
    MapItemsAppend(Flatten(a), Flatten(b), BucketOf);
  }

  /** `products.forEach(p => { collections[t] ||= []; collections[t].push(...) })`
      with the buckets kept in a map, so that every product type, whatever
      its spelling, gets its own bucket. */
  function Group(ps: seq<Product>): Collections
    decreases |ps|
  {
    if |ps| == 0 then map[]
    else
      var m := Group(ps[..|ps| - 1]);
      var p := ps[|ps| - 1];
      var c := CategoryOf(p);
      m[c := (if c in m then m[c] else []) + BucketsOf([p])]
  }

  /** One `forEach` step keeps the bucket characterisation. */
  lemma GroupStep(a: seq<Product>, p: Product, c: string)
    requires c in Group(a) <==> exists q :: q in a && CategoryOf(q) == c
    requires c in Group(a) ==> Group(a)[c] == BucketsOf(InCategory(a, c))
    ensures c in Group(a + [p]) <==> exists q :: q in a + [p] && CategoryOf(q) == c
    ensures c in Group(a + [p]) ==> Group(a + [p])[c] == BucketsOf(InCategory(a + [p], c))
  {
    var ps := a + [p];
    assert ps[..|ps| - 1] == a;
    assert ps[|ps| - 1] == p;
    var m := Group(a);
    assert Group(ps) == m[CategoryOf(p) := (if CategoryOf(p) in m then m[CategoryOf(p)] else []) + BucketsOf([p])];
    assert forall q :: q in ps <==> q in a || q == p;
    InCategoryAppend(a, [p], c);
    assert InCategory([p], c) == (if CategoryOf(p) == c then [p] else []) by {
      assert [p][1..] == [];
    }
    if CategoryOf(p) == c {
      if c !in m {
        assert InCategory(a, c) == [];
      }
      BucketsOfAppend(InCategory(a, c), [p]);
    } else {
      assert InCategory(ps, c) == InCategory(a, c);
    }
  }

  /** There is a bucket for exactly the product types that occur (even when
      their products have no variants), and each bucket holds the variants of
      that type's products, in catalog order. */
  lemma {:induction false} GroupContents(ps: seq<Product>, c: string)
    ensures c in Group(ps) <==> exists p :: p in ps && CategoryOf(p) == c
    ensures c in Group(ps) ==> Group(ps)[c] == BucketsOf(InCategory(ps, c))
    decreases |ps|
  {
    if |ps| > 0 {
      var a := ps[..|ps| - 1];
      assert ps == a + [ps[|ps| - 1]];
      GroupContents(a, c);
      GroupStep(a, ps[|ps| - 1], c);
    }
  }

  /** Each variant lands in the bucket of its own product's type. */
  lemma GroupPlacesVariant(ps: seq<Product>, p: Product, v: Variant)
    requires p in ps && v in p.variants
    ensures CategoryOf(p) in Group(ps)
    ensures BucketOf(Item(p, v)) in Group(ps)[CategoryOf(p)]
  {
    var c := CategoryOf(p);
    GroupContents(ps, c);
    var qs := InCategory(ps, c);
    FlattenMember(qs, Item(p, v));
    var k :| 0 <= k < |Flatten(qs)| && Flatten(qs)[k] == Item(p, v);
    assert BucketsOf(qs)[k] == BucketOf(Item(p, v));
  }

  /** The members of `Object.prototype` that a plain `{}` already answers
      to: looking one of them up yields a function (or, for `__proto__`,
      the prototype object), which is truthy and has no `push`. */
  const InheritedKeys: set<string> := {
    "constructor", "hasOwnProperty", "isPrototypeOf", "propertyIsEnumerable",
    "toLocaleString", "toString", "valueOf", "__proto__",
    "__defineGetter__", "__defineSetter__", "__lookupGetter__", "__lookupSetter__"}

  /** The grouping as the controller writes it, on a plain object: a product
      type naming an inherited member skips the `[]` initialisation and the
      `push` throws a TypeError. */
  function GroupAsWritten(ps: seq<Product>): (r: Result<Collections, ApiError>)
    ensures r.Failure? ==> r.error == BucketNotAnArray
    decreases |ps|
  {
    if |ps| == 0 then Success(map[])
    else match GroupAsWritten(ps[..|ps| - 1])
      case Failure(e) => Failure(e)
      case Success(m) =>
        var p := ps[|ps| - 1];
        var c := CategoryOf(p);
        if c in m then Success(m[c := m[c] + BucketsOf([p])])
        else if c in InheritedKeys then Failure(BucketNotAnArray)
        else Success(m[c := BucketsOf([p])])
  }

  /** The written grouping agrees with `Group` exactly when no product type
      names an inherited member, and throws otherwise. */
  lemma {:induction false} GroupAsWrittenAgrees(ps: seq<Product>)
    ensures (forall p :: p in ps ==> CategoryOf(p) !in InheritedKeys) ==> GroupAsWritten(ps) == Success(Group(ps))
    ensures (exists p :: p in ps && CategoryOf(p) in InheritedKeys) ==> GroupAsWritten(ps) == Failure(BucketNotAnArray)
    decreases |ps|
  {
    if |ps| > 0 {
      var a := ps[..|ps| - 1];
      var p := ps[|ps| - 1];
      assert ps == a + [p];
      assert forall q :: q in ps <==> q in a || q == p;
      GroupAsWrittenAgrees(a);
      assert ps[..|ps| - 1] == a;
      if forall q :: q in a ==> CategoryOf(q) !in InheritedKeys {
        var c := CategoryOf(p);
        GroupContents(a, c);
        var m := Group(a);
        assert GroupAsWritten(a) == Success(m);
        assert [] + BucketsOf([p]) == BucketsOf([p]);
      }
    }
  }

  /** A single product typed "constructor" makes the written grouping throw,
      where the map-based grouping answers with one empty bucket. */
  lemma ConstructorTypeBreaksGrouping()
    ensures GroupAsWritten([Product(1, "Mug", Some("constructor"), [])]) == Failure(BucketNotAnArray)
    ensures Group([Product(1, "Mug", Some("constructor"), [])]) == map["constructor" := []]
  {
    var ps := [Product(1, "Mug", Some("constructor"), [])];
    assert ps[..0] == [];
    assert Flatten(ps) == [] by {
      assert ps[1..] == [];
    }
  }

  /** The handler as written: it groups on a plain object, so a catalog with a
      product type naming an inherited member fails with a TypeError (500);
      whenever it succeeds its buckets are those of the map-based `Group`. */
  function GetAllProductsByCategory(creds: CredentialStore, user: UserId, fetch: Fetcher): (r: Result<Collections, ApiError>)
    ensures r.Failure? ==> r.error in {NoShopifyAccess, FetchFailed, BucketNotAnArray}
    ensures r.Success? ==> user in creds && fetch(creds[user]).Success? && r.value == Group(fetch(creds[user]).value)
    ensures user in creds && fetch(creds[user]).Success? ==>
      (r == Failure(BucketNotAnArray) <==> exists p :: p in fetch(creds[user]).value && CategoryOf(p) in InheritedKeys)
    ensures (&& user in creds && fetch(creds[user]).Success?
             && forall p :: p in fetch(creds[user]).value ==> CategoryOf(p) !in InheritedKeys)
            ==> r == Success(Group(fetch(creds[user]).value))
    ensures r == Failure(NoShopifyAccess) <==> user !in creds
    ensures r == Failure(FetchFailed) <==> user in creds && fetch(creds[user]).Failure?
  {
    match LoadCatalog(creds, user, fetch)
    case Failure(e) => Failure(e)
    case Success(products) =>
      GroupAsWrittenAgrees(products);
      GroupAsWritten(products)
  }

  /** Both catalog reads answer 404 without credentials, before and whatever
      any fetch would return. */
  lemma CatalogReadsNeedCredentials(creds: CredentialStore, user: UserId, f1: Fetcher, f2: Fetcher)
    requires user !in creds
    ensures GetAllProducts(creds, user, f1) == GetAllProducts(creds, user, f2) == Failure(NoShopifyAccess)
    ensures GetAllProductsByCategory(creds, user, f1) == GetAllProductsByCategory(creds, user, f2) == Failure(NoShopifyAccess)
  {
    NoCredentialsNoFetch(creds, user, f1, f2);
  }

  // ---------------------------------------------------------------------------
  // setShopifyCred and updateShopifyCred

  /** Credential fields of a request body; "" stands for missing or empty. */
  datatype CredentialsRequest = CredentialsRequest(accessToken: string, shopName: string, apiVersion: string) {
    predicate Complete() { accessToken != "" && shopName != "" && apiVersion != "" }
  }

  /** Create-once: refused when a field is missing or the user already has
      credentials; otherwise exactly one record, the user's, is added. */
  function SetShopifyCred(creds: CredentialStore, user: UserId, req: CredentialsRequest): (r: Step<CredentialStore, Credentials>)
    ensures !req.Complete() ==> r == Step(creds, Failure(CredentialsIncomplete))
    ensures req.Complete() && user in creds ==> r == Step(creds, Failure(CredentialsAlreadyAdded))
    ensures r.reply.Success? <==> req.Complete() && user !in creds
    ensures r.reply.Success? ==>
      && r.reply.value == Credentials(req.accessToken, req.shopName, req.apiVersion)
      && r.state.Keys == creds.Keys + {user}
      && |r.state| == |creds| + 1
      && r.state[user] == r.reply.value
      && forall u :: u in creds ==> r.state[u] == creds[u]
  {
    if !req.Complete() then Step(creds, Failure(CredentialsIncomplete))
    else if user in creds then Step(creds, Failure(CredentialsAlreadyAdded))
    else
      var created := Credentials(req.accessToken, req.shopName, req.apiVersion);
      Step(creds[user := created], Success(created))
  }

  /** A second set-credentials call for the same user never replaces the
      first record. */
  lemma SetShopifyCredOnce(creds: CredentialStore, user: UserId, first: CredentialsRequest, second: CredentialsRequest)
    requires SetShopifyCred(creds, user, first).reply.Success?
    ensures var once := SetShopifyCred(creds, user, first).state;
      && SetShopifyCred(once, user, second).reply.Failure?
      && SetShopifyCred(once, user, second).state == once
      && once[user] == Credentials(first.accessToken, first.shopName, first.apiVersion)
  {
  }

  /** Patch: refused without an existing record; otherwise each field takes
      the request's value when it is non-empty and keeps its own otherwise. */
  function UpdateShopifyCred(creds: CredentialStore, user: UserId, req: CredentialsRequest): (r: Step<CredentialStore, Credentials>)
    ensures user !in creds ==> r == Step(creds, Failure(ShopifyNotFound))
    ensures user in creds ==> r.reply.Success? && r.state.Keys == creds.Keys && r.state[user] == r.reply.value
    ensures forall u :: u in creds && u != user ==> u in r.state && r.state[u] == creds[u]
  {
    if user !in creds then Step(creds, Failure(ShopifyNotFound))
    else
      var stored := creds[user];
      var updated := Credentials(
        if req.accessToken != "" then req.accessToken else stored.accessToken,
        if req.shopName != "" then req.shopName else stored.shopName,
        if req.apiVersion != "" then req.apiVersion else stored.apiVersion);
      Step(creds[user := updated], Success(updated))
  }

  /** Field by field: a non-empty request value wins, an empty one keeps the
      stored value; so an all-empty request changes nothing and a complete
      one replaces the record. */
  lemma UpdateShopifyCredFields(creds: CredentialStore, user: UserId, req: CredentialsRequest)
    requires user in creds
    ensures var c := UpdateShopifyCred(creds, user, req).state[user];
      && (req.accessToken != "" ==> c.accessToken == req.accessToken)
      && (req.accessToken == "" ==> c.accessToken == creds[user].accessToken)
      && (req.shopName != "" ==> c.shopName == req.shopName)
      && (req.shopName == "" ==> c.shopName == creds[user].shopName)
      && (req.apiVersion != "" ==> c.apiVersion == req.apiVersion)
      && (req.apiVersion == "" ==> c.apiVersion == creds[user].apiVersion)
    ensures req == CredentialsRequest("", "", "") ==> UpdateShopifyCred(creds, user, req).state == creds
    ensures req.Complete() ==>
      UpdateShopifyCred(creds, user, req).state[user] == Credentials(req.accessToken, req.shopName, req.apiVersion)
  {
    if req == CredentialsRequest("", "", "") {
      assert creds[user := creds[user]] == creds;
    }
  }
}

=== FILE: wrappers.dfy ===
/** Optional values and success/failure results, used for the JavaScript
    `undefined`/`null` of a lookup and for the error path of every handler. */
module Wrappers {

  datatype Option<+T> = None | Some(value: T)

  datatype Result<+T, +E> = Success(value: T) | Failure(error: E)
}
